=== FILE: README.md ===
# Daily KJV verse selection: a Dafny model

This project models the logic of a small daily-Bible-verse application. It
has three pieces:

- **The selection rule of `VerseSelector`.** Each calendar date gets one verse
  from a catalog. A date that already has a verse keeps it. Otherwise the rule
  picks a verse that no date has used yet. It prefers a verse whose
  (book, chapter) differs from that of the verse on the latest assigned date.
  When every verse has been used, it fails.
- **The scheduling script.** It resolves every date of a range in order. An
  assigned date is either skipped or, with overwrite, cleared and resolved
  again. The script then exports the assignments as date-ordered rows
  `date, reference, kjv`.
- **The bulk loader.** It checks that the verse file has the required columns.
  It then inserts every row whose locator (book, chapter, verse) is not in the
  catalog yet, counts the insertions, and commits once at the end. Whether a
  row added earlier in the same load counts as "in the catalog" depends on the
  session's autoflush setting, which is a parameter of the model.

The store is an immutable `Store` with two maps. `verses` maps a verse id to
its `Verse`. `assignments` maps a date to a verse id; dates are day numbers.
A map holds one entry per date, as the unique date column demands. Each
operation is a pure function that returns the new store, or a `Result` whose
error stands for the exception the source raises. The scheduling script is a
loop, so `Schedule.ScheduleDate` and `Schedule.Generate` are methods whose
contracts say what one date and a whole run leave behind.

Two sources of nondeterminism become parameters:

- The random draw from the pool is an oracle. `Selection.Choose(pool, hint)`
  returns `hint` when `hint` is in the pool, and otherwise the least member of
  the pool. `Selection.PicksAreEligible` proves that the verses some draw
  reaches are exactly the verses the rule allows.
- A scheduling run receives `hints: int -> int`, which gives the draw for each
  date.

Files:

- `wrappers.dfy`: `Option` and `Result`.
- `collections.dfy`: helpers on int sets and maps: least and greatest member,
  ascending listing, injectivity.
- `text.dfy`: Python's `str(int)` and the reading back of it.
- `models.dfy`: the two tables, their constraints, and the reference string
  `Verse.ref`.
- `selection.dfy`: `get_for_date` and `_pick_new_verse`.
- `schedule.dfy`: `generate`.
- `export.dfy`: the rows of `export_csv`.
- `loader.dfy`: `load_csv`.

## Model

| member | source | states |
|---|---|---|
| Text.IntToString | scripts/schedule_verses.py:52 | A chapter or verse number renders as a non-empty string that never contains a space or a colon, so it cannot blur the separators of a reference. |
| Text.IntRoundTrip | scripts/schedule_verses.py:52 | Reading a rendered number back gives the same number. |
| Models.RefRoundTrip | app/models/verse.py:17-18 | The reference `"<book> <chapter>:<verse>"` can be parsed back into the verse's (book, chapter, verse). This holds even when the book name contains spaces or colons. |
| Models.RefDeterminesKey | app/models/verse.py:17-18 | Two verses have the same reference exactly when they have the same locator. |
| Models.DistinctIdsDistinctRefs | app/models/verse.py:13-18 | Under the unique (book, chapter, verse) constraint, two catalog rows never share a reference. |
| Selection.LastChapter | app/services/selection.py:43-50 | The chapter to avoid is that of the verse on the greatest assigned date. There is none when nothing is assigned or that verse is missing from the catalog. |
| Selection.PoolIsEligible | app/services/selection.py:59-61 | The pool holds exactly the eligible verses. These are the unused verses outside the last chapter when any exist, and all unused verses otherwise. |
| Selection.Choose | app/services/selection.py:62 | The draw is a member of the pool, and each member is the draw for its own hint. |
| Selection.PickNewVerse | app/services/selection.py:39-65 | It fails exactly when every catalog verse is used. Otherwise the pick is an unused catalog verse that the rule allows. It lies outside the last chapter whenever an unused verse outside it exists. |
| Selection.GetForDate | app/services/selection.py:26-37 | An assigned date returns its verse and leaves the store unchanged. Resolution fails exactly when the date is unassigned and every verse is used. Otherwise exactly one entry `target -> id` is added, with `id` an unused eligible catalog verse, and the catalog is untouched. |
| Selection.PicksAreEligible | app/services/selection.py:59-62 | A verse can be drawn by some hint if and only if the rule allows it. |
| Selection.GetForDateIdempotent | app/services/selection.py:26-31 | Resolving a date a second time, with any draw, returns the first result and changes nothing. |
| Selection.GetForDatePreservesValid | app/services/selection.py:32-35 | Resolution keeps the unique constraint and keeps every assignment pointing into the catalog. |
| Selection.GetForDatePreservesNoRepeat | app/services/selection.py:12-17 | If no verse is on two dates before a resolution, none is after it. |
| Selection.GetForDateConsumesOne | app/services/selection.py:52-57 | Resolving a new date removes exactly the picked verse from the unused set, so that set shrinks by one. |
| Selection.ComparesWithLatestDate | app/services/selection.py:43-50 | The chapter avoided is the one on the greatest assigned date, even when the date being resolved lies before it. It needs only that date's verse to be in the catalog. |
| Selection.NothingFilteredWithoutHistory | app/services/selection.py:46-61 | With no assignments, no verse is filtered out. Each catalog verse can be the first pick, whatever the date resolved. |
| Selection.FallbackKeepsChapter | app/services/selection.py:59-61 | When every unused verse shares the last chapter, resolution still succeeds, and it picks from that chapter. |
| Schedule.ScheduleDate | scripts/schedule_verses.py:27-34 | Without overwrite, an assigned date is skipped and keeps its verse. With overwrite, its assignment is deleted and the date is resolved again; in a consistent store without repeated verses this always succeeds, because the deleted verse is free again. A date that gets a verse gets one the selection rule allows in the store with that date cleared. An unassigned date fails exactly when every verse is used; otherwise it takes a verse no date had, and the unused set shrinks by one. A date that fails is left unassigned. Other dates and the catalog stay as they were, and the table constraints and "no verse on two dates" are kept. |
| Schedule.Generate | scripts/schedule_verses.py:22-36 | Zero or negative days change nothing, since the range is then empty. Dates outside the range are untouched, and without overwrite so are the existing assignments. A run that completes assigns every date of the range. A run that stops does so at an unassigned date of the range, with all earlier dates of the range assigned and every later date of the range left as it was. The table constraints and "no verse on two dates" are kept. On a range with no assignments, with or without overwrite (the flag then has nothing to clear), the existing assignments are kept and the run completes exactly when there are at least as many unused verses as dates, and then uses up that many; otherwise it stops at the first date beyond the unused verses. Every date of such a range gets a verse no date had before, and no two of its dates share one. From an empty schedule, a run of N days over N verses uses every verse exactly once, on exactly those N dates. |
| Export.ExportTable | scripts/schedule_verses.py:42-53 | The table is the header `date, reference, kjv` followed by one row per assignment that joins with a catalog verse. Rows appear in strictly ascending date order, and each row carries that verse's reference and text. |
| Export.ExportCoversSchedule | scripts/schedule_verses.py:42-46 | When every assignment refers to a catalog verse, there is exactly one row per assignment. |
| Export.ExportReferencesParse | scripts/schedule_verses.py:52 | Each exported reference parses back to the locator of the verse assigned to its date. |
| Export.ExportReferencesDistinct | scripts/schedule_verses.py:52 | With unique locators and no repeated verse, no reference appears on two rows. |
| Loader.HasColumns | scripts/load_verses.py:18-19 | The header is accepted exactly when it names all of `book`, `chapter`, `verse` and `text_kjv`. |
| Loader.FirstMalformed | scripts/load_verses.py:24-29 | It finds the first row whose chapter or verse is not an integer or does not fit the signed 64-bit integer column, or reports that every row is well formed. |
| Loader.InsertRow | scripts/load_verses.py:25-39 | A row is inserted exactly when its locator is absent. It then goes under an id the table did not have. Otherwise the catalog is unchanged. |
| Loader.InsertAll | scripts/load_verses.py:22-40 | Existing verses are kept unchanged. The count equals the growth of the catalog. |
| Loader.InsertAllUnflushed | scripts/load_verses.py:22-40 | Without autoflush the existence query sees only the committed catalog. Existing verses are kept unchanged, and the count equals the growth of the catalog. |
| Loader.LoadCsv | scripts/load_verses.py:14-43 | A missing column fails before any insert. A chapter or verse that is not an integer, or is outside the signed 64-bit range the driver binds, fails with nothing committed, naming the first such row. Without autoflush, a file in which two rows carry the same locator, one the catalog lacks, fails at the commit with nothing committed. Otherwise the load succeeds, existing verses and assignments are untouched, and the count equals the number of verses added. |
| Loader.OutOfRangeRefused | scripts/load_verses.py:25-29 | A row whose chapter or verse is an integer outside the signed 64-bit column range (app/models/verse.py:9-10) makes the load fail at that row or an earlier one, with either session setting. |
| Loader.InsertAllCoversRows | scripts/load_verses.py:24-38 | After the loop, the catalog holds every row's locator. |
| Loader.InsertAllFirstRowWins | scripts/load_verses.py:25-38 | Every added verse is the verse of the first row carrying its locator, and that locator was absent before. |
| Loader.InsertAllAddsFirstRows | scripts/load_verses.py:32-38 | Every row whose locator is new to the catalog and to the earlier rows is added with its own book, chapter, verse and text. |
| Loader.InsertAllKeepsKeysUnique | scripts/load_verses.py:25-38 | The loop never gives a locator a second verse. |
| Loader.InsertAllNothingNew | scripts/load_verses.py:25-31 | Rows whose locators are all present change nothing and insert nothing. |
| Loader.UnflushedAddsRow | scripts/load_verses.py:24-39 | Without autoflush, every row whose locator the committed catalog lacks is added under a new id, with its own fields. |
| Loader.UnflushedRepeatClashes | scripts/load_verses.py:24-39 | Without autoflush, two rows carrying the same new locator are both added, under two different new ids. |
| Loader.DuplicateLocatorClashes | app/models/verse.py:13-15 | When a load without autoflush is refused for a repeated new locator, the verses it would have committed give that locator two new ids. The unique (book, chapter, verse) constraint rejects exactly that. |
| Loader.UnflushedAgrees | scripts/load_verses.py:24-39 | When no row repeats a new locator, the loop without autoflush adds exactly what the loop with autoflush adds. |
| Loader.LoadCsvAutoflushIrrelevant | scripts/load_verses.py:14-43 | A load without autoflush that commits leaves the same store and count as the load with autoflush. |
| Loader.LoadCsvContents | scripts/load_verses.py:14-43 | With or without autoflush, after a successful load, the catalog holds every row's locator. The added verses are exactly those of the first rows with new locators, and unique locators stay unique. |
| Loader.LoadCsvTwice | scripts/load_verses.py:14-43 | Loading the same file a second time, with the same autoflush setting, inserts nothing and leaves the store unchanged. |

## Left out

- The GUI, the launcher, the test runner and the HTTP API are not part of this model. They are widgets, process launching and transport, and none of them decides which verse a date gets.
- Settings loading and the seeding of `random.Random` are not modelled. This includes the `seed or settings.seed` fallback (app/services/selection.py:21), which treats a seed of 0 as absent. The model keeps only which verses a draw can reach.
- Selection.Choose: the draw is an oracle, not a uniform random choice. The model states which verses can be drawn, not how likely each one is.
- `get_today` reads the clock. It is `GetForDate` applied to today's day number.
- Dates are day numbers. Calendar arithmetic (`start + timedelta(days=offset)`) is integer addition.
- Schedule.Generate: Python's dates run from 0001-01-01 to 9999-12-31, and a run that steps past either end raises `OverflowError` at scripts/schedule_verses.py:27 and stops there, as exhaustion does. Day numbers have no such bound, so the model does not stop there.
- Export.ExportTable: the date column holds the day number, not its ISO-8601 rendering `YYYY-MM-DD`. CSV quoting and writing, the output directory and file handling are not modelled. The table is a header plus typed rows.
- Loader.LoadCsv: reading the CSV is not modelled. Each record arrives already split, with `chapter` and `verse` either an integer or absent. Absent stands for any text that Python's `int()` rejects, and the model does not decide which texts those are. A record with missing fields is not modelled.
- Loader.NextId: a new verse gets the largest id plus one, or 1 in an empty table. This is SQLite's rule for an integer primary key. The proofs rely only on the id being fresh.
- The session configuration (app/db/session.py) is not part of this model, so `Loader.LoadCsv` takes the autoflush setting as a parameter. With autoflush, a verse added earlier in the same load is visible to the existence query of a later row, so a locator repeated within one file is inserted once. Without it (the test sessions use `autoflush=False`), both rows are added, and the commit fails on the unique locator; the model reports that as `DuplicateLocator` with nothing committed, and does not model the exception's message.
- Sessions, commits, `refresh`, the `created_at` timestamp and the ORM relationship are not modelled. Each successful resolution is one committed step. When a scheduling run runs out of verses it stops with an error, and earlier dates keep their committed assignments.
- The overwrite path deletes and commits before it resolves. If resolution then fails, the date stays cleared, and `Schedule.ScheduleDate` returns the cleared store.
- Concurrency is not modelled. The source has no locking, and two processes resolving the same date would collide on the unique date column.
- The scripts' command-line parsing, the message printed after loading or scheduling, and table creation are not modelled.
- Exhaustion is checked against the assignments in the store. The model does not reset or extend the catalog, and neither does the source.

## Notes on the modelled behaviour

- The chapter to avoid comes from the assignment with the greatest date in the store, not from the day before the date being resolved (`Selection.ComparesWithLatestDate`). The two agree whenever nothing is assigned yet or the date being resolved is the day after the greatest assigned date. On a range with nothing assigned at or after its start, that holds from the range's second date on, and for its first date only when nothing is assigned or the day before it is the greatest assigned date. After a gap, the chapter to avoid is the one of the last assigned date before the gap, where a day-before rule would avoid nothing. When a date earlier than some assignment is filled in, the rule compares against that later date. The model keeps this behaviour as written.
- An assignment whose verse id is missing from the catalog yields no chapter to avoid, and the export's inner join drops it. A consistent store (`Models.Valid`) has no such assignment, and every operation here keeps the store consistent.

=== FILE: collections.dfy ===
/** Facts about finite sets and maps of integers used by the store model. */
module Collections {

  /** No two keys of `m` map to the same value. */
  ghost predicate Injective<K, V>(m: map<K, V>)
  {
    forall x, y | x in m && y in m && x != y :: m[x] != m[y]
  }

  /** A non-empty set has a member. */
  lemma NonEmptyHasMember(s: set<int>)
    requires s != {}
    ensures exists y :: y in s
  {
    if forall y :: y !in s {
      assert false;
    }
  }

  /** Every value of a map is the image of some key. */
  lemma ValueHasKey(m: map<int, int>, x: int)
    requires x in m.Values
    ensures exists d :: d in m && m[d] == x
  {
    if forall d | d in m :: m[d] != x {
      assert false;
    }
  }

  /** Some member of a non-empty set. */
  ghost function PickOne(s: set<int>): (y: int)
    requires s != {}
    ensures y in s
  {
    NonEmptyHasMember(s);
    var y :| y in s; y
  }

  /** Every finite non-empty set of integers has a greatest element. */
  lemma {:induction false} GreatestExists(s: set<int>)
    requires s != {}
    ensures exists m :: m in s && forall x | x in s :: x <= m
    decreases |s|
  {
    var y := PickOne(s);
    var rest := s - {y};
    if rest != {} {
      GreatestExists(rest);
      var m :| m in rest && forall x | x in rest :: x <= m;
      assert forall x | x in s :: x == y || x in rest;
      if y <= m {
        assert m in s && forall x | x in s :: x <= m;
      } else {
        assert y in s && forall x | x in s :: x <= y;
      }
    } else {
      assert forall x | x in s :: x == y;
    }
  }

  /** Every finite non-empty set of integers has a least element. */
  lemma {:induction false} LeastExists(s: set<int>)
    requires s != {}
    ensures exists m :: m in s && forall x | x in s :: m <= x
    decreases |s|
  {
    var y := PickOne(s);
    var rest := s - {y};
    if rest != {} {
      LeastExists(rest);
      var m :| m in rest && forall x | x in rest :: m <= x;
      assert forall x | x in s :: x == y || x in rest;
      if m <= y {
        assert m in s && forall x | x in s :: m <= x;
      } else {
        assert y in s && forall x | x in s :: y <= x;
      }
    } else {
      assert forall x | x in s :: x == y;
    }
  }

  /** The greatest element of a non-empty finite set. */
  function Greatest(s: set<int>): (m: int)
    requires s != {}
    ensures m in s
    ensures forall x | x in s :: x <= m
  {
    GreatestExists(s);
    var m :| m in s && forall x | x in s :: x <= m;
    m
  }

  /** The least element of a non-empty finite set. */
  function Least(s: set<int>): (m: int)
    requires s != {}
    ensures m in s
    ensures forall x | x in s :: m <= x
  {
    LeastExists(s);
    var m :| m in s && forall x | x in s :: m <= x;
    m
  }

  /** Adding a new key to a map adds exactly its value to the map's values. */
  lemma ValuesAfterInsert(m: map<int, int>, k: int, v: int)
    requires k !in m
    ensures m[k := v].Values == m.Values + {v}
  {
    var a := m[k := v];
    forall x | x in a.Values ensures x in m.Values + {v} {
      ValueHasKey(a, x);
      var d :| d in a && a[d] == x;
      if d != k {
        assert m[d] == x;
      }
    }
    forall x | x in m.Values + {v} ensures x in a.Values {
      if x == v {
        assert a[k] == x;
      } else {
        ValueHasKey(m, x);
        var d :| d in m && m[d] == x;
        assert a[d] == x;
      }
    }
  }

  /** Strictly ascending order of a sequence. */
  ghost predicate StrictlyAscending(xs: seq<int>)
  {
    forall i, j | 0 <= i < j < |xs| :: xs[i] < xs[j]
  }

  /** The elements of `s` listed in ascending order. */
  function Ascending(s: set<int>): (xs: seq<int>)
    ensures StrictlyAscending(xs)
    ensures |xs| == |s|
    ensures forall x :: x in xs <==> x in s
    decreases |s|
  {
    if s == {} then []
    else
      var m := Least(s);
      var rest := Ascending(s - {m});
      [m] + rest
  }
}

=== FILE: export.dfy ===
/**
 * The rows of the exported schedule: one per assignment whose verse is in the
 * catalog, ordered by date, each with the verse's reference and text.
 */
module Export {
  import opened Wrappers
  import opened Models
  import Collections

  /** One exported line: the date, the reference `"<book> <chapter>:<verse>"`, and the verse text. */
  datatype ExportRow = ExportRow(date: int, reference: string, kjv: string)

  /** The exported table: a header line and the data lines. */
  datatype Table = Table(header: seq<string>, rows: seq<ExportRow>)

  /** The header line of the export. */
  const Header: seq<string> := ["date", "reference", "kjv"]

  /** The dates that survive the join of assignments with the catalog. */
  function Joined(s: Store): set<int>
  {
    set d | d in s.assignments && s.assignments[d] in s.verses
  }

  /** The row of a joined date. */
  function RowOf(s: Store, d: int): (row: ExportRow)
    requires d in Joined(s)
    ensures row.date == d
  {
    var v := s.verses[s.assignments[d]];
    ExportRow(d, Ref(v), v.text)
  }

  /** The row of a date describes the verse assigned to that date. */
  ghost predicate Describes(s: Store, row: ExportRow)
  {
    && row.date in s.assignments
    && s.assignments[row.date] in s.verses
    && row.reference == Ref(s.verses[s.assignments[row.date]])
    && row.kjv == s.verses[s.assignments[row.date]].text
  }

  /** The rows of the given joined dates, in the given order. */
  function RowsOf(s: Store, dates: seq<int>): (rows: seq<ExportRow>)
    requires forall i | 0 <= i < |dates| :: dates[i] in Joined(s)
    ensures |rows| == |dates|
    ensures forall i | 0 <= i < |rows| :: rows[i].date == dates[i] && Describes(s, rows[i])
  {
    if dates == [] then []
    else [RowOf(s, dates[0])] + RowsOf(s, dates[1..])
  }

  /** The export of a store: the header, then one row per joined date, by ascending date. */
  function ExportTable(s: Store): (t: Table)
    ensures t.header == Header
    ensures |t.rows| == |Joined(s)|
    ensures forall i | 0 <= i < |t.rows| :: Describes(s, t.rows[i])
    ensures forall i, j | 0 <= i < j < |t.rows| :: t.rows[i].date < t.rows[j].date
    ensures forall d | d in Joined(s) :: exists i :: 0 <= i < |t.rows| && t.rows[i].date == d
  {
    var dates := Collections.Ascending(Joined(s));
    var rows := RowsOf(s, dates);
    forall d | d in Joined(s)
      ensures exists i :: 0 <= i < |rows| && rows[i].date == d
    {
      var i :| 0 <= i < |dates| && dates[i] == d;
      assert rows[i].date == d;
    }
    Table(Header, rows)
  }

  /** When every assignment points into the catalog, every assignment gives exactly one row. */
  lemma ExportCoversSchedule(s: Store)
    requires forall d | d in s.assignments :: s.assignments[d] in s.verses
    ensures |ExportTable(s).rows| == |s.assignments|
  {
    forall d | d in s.assignments
      ensures d in Joined(s)
    {
    }
    assert Joined(s) == s.assignments.Keys;
  }

  /** Every exported reference parses back to the locator of the verse assigned to its date. */
  lemma ExportReferencesParse(s: Store)
    ensures var rows := ExportTable(s).rows;
      forall i | 0 <= i < |rows| ::
        ParseRef(rows[i].reference) == Some(KeyOf(s.verses[s.assignments[rows[i].date]]))
  {
    var rows := ExportTable(s).rows;
    forall i | 0 <= i < |rows|
      ensures ParseRef(rows[i].reference) == Some(KeyOf(s.verses[s.assignments[rows[i].date]]))
    {
      RefRoundTrip(s.verses[s.assignments[rows[i].date]]);
    }
  }

  /** When no verse repeats and locators are unique, no reference appears on two rows. */
  lemma ExportReferencesDistinct(s: Store)
    requires Valid(s)
    requires NoRepeat(s)
    ensures var rows := ExportTable(s).rows;
      forall i, j | 0 <= i < j < |rows| :: rows[i].reference != rows[j].reference
  {
    var rows := ExportTable(s).rows;
    forall i, j | 0 <= i < j < |rows|
      ensures rows[i].reference != rows[j].reference
    {
      var a := s.assignments;
      assert rows[i].date != rows[j].date;
      assert a[rows[i].date] != a[rows[j].date];
      DistinctIdsDistinctRefs(s.verses, a[rows[i].date], a[rows[j].date]);
    }
  }
}

=== FILE: loader.dfy ===
/**
 * The bulk loader: checks the header of a verse file, then inserts each row
 * whose locator `(book, chapter, verse)` is not in the catalog yet, and counts
 * the insertions; everything is committed at the end. Whether the existence
 * query sees the rows added earlier in the same load depends on the session's
 * autoflush setting, so both settings are modelled: with autoflush a row is
 * also skipped when an earlier row of the file carried its locator; without
 * it both rows are added and the commit fails on the unique locator.
 */
module Loader {
  import opened Wrappers
  import opened Models
  import Collections

  /**
   * One record of the file. `chapter` and `verse` are `None` when the field
   * is not an integer numeral; otherwise they hold its value, of any size.
   */
  datatype CsvRow = CsvRow(book: string, chapter: Option<int>, verse: Option<int>, text: string)

  /** Why a load fails; in every case nothing is committed. */
  datatype LoadError =
    | MissingColumns
    | BadNumber(row: nat)
    | DuplicateLocator

  /** The outcome of a load: the store afterwards and the number of verses inserted. */
  datatype Loaded = Loaded(store: Store, inserted: nat)

  /** The columns a verse file must have. */
  const Required: set<string> := {"book", "chapter", "verse", "text_kjv"}

  /** The header names every required column. */
  function HasColumns(header: seq<string>): (b: bool)
    ensures b <==> forall c | c in Required :: c in header
  {
    "book" in header && "chapter" in header && "verse" in header && "text_kjv" in header
  }

  /** The least and greatest values the database driver binds to an integer column: signed 64 bits. */
  const IntColumnMin: int := -0x8000_0000_0000_0000
  const IntColumnMax: int := 0x7FFF_FFFF_FFFF_FFFF

  /** `n` can be bound to an integer column; a larger value makes the query raise. */
  predicate FitsColumn(n: int)
  {
    IntColumnMin <= n <= IntColumnMax
  }

  /**
   * Both numeric fields of a row are integers that the existence query can
   * bind; any other row makes the load raise with nothing committed.
   */
  predicate WellFormed(row: CsvRow)
  {
    && row.chapter.Some? && row.verse.Some?
    && FitsColumn(row.chapter.value) && FitsColumn(row.verse.value)
  }

  /** The verse a well-formed row describes. */
  function RowVerse(row: CsvRow): (v: Verse)
    requires WellFormed(row)
    ensures v.book == row.book && v.chapter == row.chapter.value && v.verse == row.verse.value && v.text == row.text
  {
    Verse(row.book, row.chapter.value, row.verse.value, row.text)
  }

  /** Some verse of the catalog has locator `k`. */
  predicate Present(verses: map<int, Verse>, k: Key)
  {
    exists id | id in verses :: KeyOf(verses[id]) == k
  }

  /** The index of the first row that is not well formed, if any. */
  function FirstMalformed(rows: seq<CsvRow>): (o: Option<nat>)
    ensures o.None? <==> forall i | 0 <= i < |rows| :: WellFormed(rows[i])
    ensures o.Some? ==>
      && o.value < |rows|
      && !WellFormed(rows[o.value])
      && forall i | 0 <= i < o.value :: WellFormed(rows[i])
  {
    if rows == [] then None
    else if !WellFormed(rows[0]) then Some(0)
    else match FirstMalformed(rows[1..])
      case None => None
      case Some(i) => Some(i + 1)
  }

  /** The id the table gives a new verse: one more than the largest id, or 1 for an empty table. */
  function NextId(verses: map<int, Verse>): (id: int)
    ensures id !in verses
    ensures forall k | k in verses :: k < id
  {
    if verses == map[] then 1 else Collections.Greatest(verses.Keys) + 1
  }

  /** One row: skipped when its locator is present, inserted under a new id otherwise. */
  function InsertRow(verses: map<int, Verse>, row: CsvRow): (r: (map<int, Verse>, bool))
    requires WellFormed(row)
    ensures r.1 <==> !Present(verses, KeyOf(RowVerse(row)))
    ensures !r.1 ==> r.0 == verses
    ensures r.1 ==> exists id :: id !in verses && r.0 == verses[id := RowVerse(row)]
  {
    var v := RowVerse(row);
    if Present(verses, KeyOf(v)) then (verses, false)
    else
      var id := NextId(verses);
      (verses[id := v], true)
  }

  /** The loop of the loader over well-formed rows, in file order. */
  function InsertAll(verses: map<int, Verse>, rows: seq<CsvRow>): (r: (map<int, Verse>, nat))
    requires forall i | 0 <= i < |rows| :: WellFormed(rows[i])
    ensures forall id | id in verses :: id in r.0 && r.0[id] == verses[id]
    ensures |r.0| == |verses| + r.1
    decreases |rows|
  {
    if rows == [] then (verses, 0)
    else
      var step := InsertRow(verses, rows[0]);
      var rest := InsertAll(step.0, rows[1..]);
      (rest.0, rest.1 + if step.1 then 1 else 0)
  }

  /**
   * The loop without autoflush: the existence query sees only `base`, the
   * catalog as committed before the load, so every row whose locator `base`
   * lacks is added, even when an earlier row of the file carried it.
   */
  function InsertAllUnflushed(base: map<int, Verse>, verses: map<int, Verse>, rows: seq<CsvRow>): (r: (map<int, Verse>, nat))
    requires forall i | 0 <= i < |rows| :: WellFormed(rows[i])
    ensures forall id | id in verses :: id in r.0 && r.0[id] == verses[id]
    ensures |r.0| == |verses| + r.1
    decreases |rows|
  {
    if rows == [] then (verses, 0)
    else
      var v := RowVerse(rows[0]);
      if Present(base, KeyOf(v)) then InsertAllUnflushed(base, verses, rows[1..])
      else
        var rest := InsertAllUnflushed(base, verses[NextId(verses) := v], rows[1..]);
        (rest.0, rest.1 + 1)
  }

  /** Two rows of the file carry the same locator, one that `base` lacks. */
  predicate RepeatsNewLocator(base: map<int, Verse>, rows: seq<CsvRow>)
    requires forall i | 0 <= i < |rows| :: WellFormed(rows[i])
  {
    exists i, j | 0 <= i < j < |rows| ::
      && !Present(base, KeyOf(RowVerse(rows[i])))
      && KeyOf(RowVerse(rows[i])) == KeyOf(RowVerse(rows[j]))
  }

  /**
   * Loads a verse file into the store: fails before any insert when a
   * required column is missing, fails with nothing committed when a row has a
   * chapter or verse that is not an integer or does not fit the integer
   * column, and otherwise inserts the new rows. Without
   * autoflush, a file that repeats a new locator adds it twice, and the commit
   * fails on the unique locator, again with nothing committed.
   */
  function LoadCsv(s: Store, header: seq<string>, rows: seq<CsvRow>, autoflush: bool): (r: Result<Loaded, LoadError>)
    ensures !HasColumns(header) <==> r == Err(MissingColumns)
    ensures r.Err? && r.error.BadNumber? ==>
      && HasColumns(header)
      && r.error.row < |rows|
      && !WellFormed(rows[r.error.row])
      && forall i | 0 <= i < r.error.row :: WellFormed(rows[i])
    ensures r == Err(DuplicateLocator) <==>
      && !autoflush
      && HasColumns(header)
      && (forall i | 0 <= i < |rows| :: WellFormed(rows[i]))
      && RepeatsNewLocator(s.verses, rows)
    ensures r.Ok? <==>
      && HasColumns(header)
      && (forall i | 0 <= i < |rows| :: WellFormed(rows[i]))
      && (autoflush || !RepeatsNewLocator(s.verses, rows))
    ensures r.Ok? ==> r.value.store.assignments == s.assignments
    ensures r.Ok? ==> forall id | id in s.verses :: id in r.value.store.verses && r.value.store.verses[id] == s.verses[id]
    ensures r.Ok? ==> r.value.inserted == |r.value.store.verses| - |s.verses|
  {
    if !HasColumns(header) then Err(MissingColumns)
    else match FirstMalformed(rows)
      case Some(i) => Err(BadNumber(i))
      case None =>
        if autoflush then
          var done := InsertAll(s.verses, rows);
          Ok(Loaded(s.(verses := done.0), done.1))
        else if RepeatsNewLocator(s.verses, rows) then Err(DuplicateLocator)
        else
          var done := InsertAllUnflushed(s.verses, s.verses, rows);
          Ok(Loaded(s.(verses := done.0), done.1))
  }

  /** After the loop every row's locator is in the catalog. */
  lemma {:induction false} InsertAllCoversRows(verses: map<int, Verse>, rows: seq<CsvRow>)
    requires forall i | 0 <= i < |rows| :: WellFormed(rows[i])
    ensures var r := InsertAll(verses, rows);
      forall i | 0 <= i < |rows| :: Present(r.0, KeyOf(RowVerse(rows[i])))
    decreases |rows|
  {
    if rows != [] {
      var step := InsertRow(verses, rows[0]);
      InsertAllCoversRows(step.0, rows[1..]);
      var r := InsertAll(verses, rows);
      var k := KeyOf(RowVerse(rows[0]));
      InsertRowPresent(verses, rows[0]);
      PresentKept(step.0, r.0, k);
      forall i | 1 <= i < |rows|
        ensures Present(r.0, KeyOf(RowVerse(rows[i])))
      {
        assert rows[i] == rows[1..][i - 1];
      }
    }
  }

  /** A locator present in a catalog stays present in any catalog that keeps its verses. */
  lemma PresentKept(before: map<int, Verse>, after: map<int, Verse>, k: Key)
    requires forall id | id in before :: id in after && after[id] == before[id]
    ensures Present(before, k) ==> Present(after, k)
  {
    if Present(before, k) {
      var id :| id in before && KeyOf(before[id]) == k;
      assert id in after && KeyOf(after[id]) == k;
    }
  }

  /** After one row its locator is in the catalog, whether the row was inserted or skipped. */
  lemma InsertRowPresent(verses: map<int, Verse>, row: CsvRow)
    requires WellFormed(row)
    ensures Present(InsertRow(verses, row).0, KeyOf(RowVerse(row)))
  {
    if !Present(verses, KeyOf(RowVerse(row))) {
      var id := NextId(verses);
      assert InsertRow(verses, row).0[id] == RowVerse(row);
    }
  }

  /**
   * The verse under a new id is the verse of the first row carrying its
   * locator, and that locator was not in the catalog before.
   */
  ghost predicate FromFirstRow(verses: map<int, Verse>, rows: seq<CsvRow>, v: Verse)
    requires forall i | 0 <= i < |rows| :: WellFormed(rows[i])
  {
    && !Present(verses, KeyOf(v))
    && exists i | 0 <= i < |rows| ::
      && v == RowVerse(rows[i])
      && forall j | 0 <= j < i :: KeyOf(RowVerse(rows[j])) != KeyOf(v)
  }

  /** Every verse the loop adds comes from the first row with its locator. */
  lemma {:induction false} InsertAllFirstRowWins(verses: map<int, Verse>, rows: seq<CsvRow>)
    requires forall i | 0 <= i < |rows| :: WellFormed(rows[i])
    ensures var r := InsertAll(verses, rows).0;
      forall id | id in r && id !in verses :: FromFirstRow(verses, rows, r[id])
    decreases |rows|
  {
    if rows != [] {
      var v1 := InsertRow(verses, rows[0]).0;
      var tail := rows[1..];
      InsertAllFirstRowWins(v1, tail);
      InsertRowPresent(verses, rows[0]);
      var r := InsertAll(verses, rows).0;
      forall id | id in r && id !in verses
        ensures FromFirstRow(verses, rows, r[id])
      {
        if id in v1 {
          assert r[id] == RowVerse(rows[0]);
        } else {
          var k := KeyOf(r[id]);
          assert FromFirstRow(v1, tail, r[id]);
          PresentKept(verses, v1, k);
          var i :| 0 <= i < |tail| && r[id] == RowVerse(tail[i])
            && forall j | 0 <= j < i :: KeyOf(RowVerse(tail[j])) != k;
          assert KeyOf(RowVerse(rows[0])) != k;
          assert r[id] == RowVerse(rows[i + 1]);
          forall j | 0 <= j < i + 1
            ensures KeyOf(RowVerse(rows[j])) != k
          {
            if j > 0 {
              assert rows[j] == tail[j - 1];
            }
          }
        }
      }
    }
  }

  /** One row adds no locator other than its own. */
  lemma InsertRowOnlyOwnKey(verses: map<int, Verse>, row: CsvRow, k: Key)
    requires WellFormed(row)
    requires k != KeyOf(RowVerse(row))
    ensures Present(InsertRow(verses, row).0, k) ==> Present(verses, k)
  {
    var r := InsertRow(verses, row).0;
    if Present(r, k) {
      var id :| id in r && KeyOf(r[id]) == k;
      assert id in verses;
    }
  }

  /**
   * Every row whose locator is new to the catalog and to the rows before it
   * is inserted with its own book, chapter, verse and text.
   */
  lemma {:induction false} InsertAllAddsFirstRows(verses: map<int, Verse>, rows: seq<CsvRow>)
    requires forall i | 0 <= i < |rows| :: WellFormed(rows[i])
    ensures var r := InsertAll(verses, rows).0;
      forall i | 0 <= i < |rows|
        && !Present(verses, KeyOf(RowVerse(rows[i])))
        && (forall j | 0 <= j < i :: KeyOf(RowVerse(rows[j])) != KeyOf(RowVerse(rows[i]))) ::
        exists id :: id in r && id !in verses && r[id] == RowVerse(rows[i])
    decreases |rows|
  {
    if rows != [] {
      var v1 := InsertRow(verses, rows[0]).0;
      var tail := rows[1..];
      InsertAllAddsFirstRows(v1, tail);
      var r := InsertAll(verses, rows).0;
      forall i | 0 <= i < |rows|
        && !Present(verses, KeyOf(RowVerse(rows[i])))
        && (forall j | 0 <= j < i :: KeyOf(RowVerse(rows[j])) != KeyOf(RowVerse(rows[i])))
        ensures exists id :: id in r && id !in verses && r[id] == RowVerse(rows[i])
      {
        if i == 0 {
          var id := NextId(verses);
          assert r[id] == RowVerse(rows[0]);
        } else {
          var k := KeyOf(RowVerse(rows[i]));
          assert rows[i] == tail[i - 1];
          InsertRowOnlyOwnKey(verses, rows[0], k);
          forall j | 0 <= j < i - 1
            ensures KeyOf(RowVerse(tail[j])) != k
          {
            assert tail[j] == rows[j + 1];
          }
          var id :| id in r && id !in v1 && r[id] == RowVerse(tail[i - 1]);
          assert id !in verses;
        }
      }
    }
  }

  /** One row never gives a locator a second verse. */
  lemma InsertRowKeepsKeysUnique(verses: map<int, Verse>, row: CsvRow)
    requires WellFormed(row)
    requires KeysUnique(verses)
    ensures KeysUnique(InsertRow(verses, row).0)
  {
    var v := RowVerse(row);
    if !Present(verses, KeyOf(v)) {
      var id := NextId(verses);
      var r := verses[id := v];
      forall i, j | i in r && j in r && i != j
        ensures KeyOf(r[i]) != KeyOf(r[j])
      {
        if i == id {
          assert KeyOf(verses[j]) != KeyOf(v);
        } else if j == id {
          assert KeyOf(verses[i]) != KeyOf(v);
        }
      }
    }
  }

  /** The loop never gives a locator a second verse. */
  lemma {:induction false} InsertAllKeepsKeysUnique(verses: map<int, Verse>, rows: seq<CsvRow>)
    requires forall i | 0 <= i < |rows| :: WellFormed(rows[i])
    requires KeysUnique(verses)
    ensures KeysUnique(InsertAll(verses, rows).0)
    decreases |rows|
  {
    if rows != [] {
      InsertRowKeepsKeysUnique(verses, rows[0]);
      InsertAllKeepsKeysUnique(InsertRow(verses, rows[0]).0, rows[1..]);
    }
  }

  /** Rows whose locators are all present change nothing and insert nothing. */
  lemma {:induction false} InsertAllNothingNew(verses: map<int, Verse>, rows: seq<CsvRow>)
    requires forall i | 0 <= i < |rows| :: WellFormed(rows[i])
    requires forall i | 0 <= i < |rows| :: Present(verses, KeyOf(RowVerse(rows[i])))
    ensures InsertAll(verses, rows) == (verses, 0)
    decreases |rows|
  {
    if rows != [] {
      var tail := rows[1..];
      forall i | 0 <= i < |tail|
        ensures Present(verses, KeyOf(RowVerse(tail[i])))
      {
        assert tail[i] == rows[i + 1];
      }
      InsertAllNothingNew(verses, tail);
    }
  }

  /**
   * Without autoflush, every row whose locator the committed catalog lacks is
   * added under an id of its own, with its own fields.
   */
  lemma {:induction false} UnflushedAddsRow(base: map<int, Verse>, verses: map<int, Verse>, rows: seq<CsvRow>, i: int)
    requires forall k | 0 <= k < |rows| :: WellFormed(rows[k])
    requires 0 <= i < |rows|
    requires !Present(base, KeyOf(RowVerse(rows[i])))
    ensures var r := InsertAllUnflushed(base, verses, rows).0;
      exists id :: id in r && id !in verses && r[id] == RowVerse(rows[i])
    decreases |rows|
  {
    var tail := rows[1..];
    var v := RowVerse(rows[0]);
    var v1 := if Present(base, KeyOf(v)) then verses else verses[NextId(verses) := v];
    var r := InsertAllUnflushed(base, verses, rows).0;
    assert r == InsertAllUnflushed(base, v1, tail).0;
    if i == 0 {
      assert r[NextId(verses)] == v;
    } else {
      assert rows[i] == tail[i - 1];
      UnflushedAddsRow(base, v1, tail, i - 1);
      var id :| id in r && id !in v1 && r[id] == RowVerse(tail[i - 1]);
      assert id !in verses;
    }
  }

  /** Two different ids that `before` lacks give verses of `after` the same locator. */
  ghost predicate NewIdsShareLocator(before: map<int, Verse>, after: map<int, Verse>)
  {
    exists id1, id2 | id1 in after && id2 in after ::
      id1 != id2 && id1 !in before && id2 !in before && KeyOf(after[id1]) == KeyOf(after[id2])
  }

  /** Ids new with respect to a catalog are new with respect to any smaller one. */
  lemma NewIdsShareLocatorWiden(before: map<int, Verse>, mid: map<int, Verse>, after: map<int, Verse>)
    requires forall id | id in before :: id in mid
    requires NewIdsShareLocator(mid, after)
    ensures NewIdsShareLocator(before, after)
  {
    var id1, id2 :| id1 in after && id2 in after
      && id1 != id2 && id1 !in mid && id2 !in mid && KeyOf(after[id1]) == KeyOf(after[id2]);
    assert id1 !in before && id2 !in before;
  }

  /**
   * Without autoflush, two rows carrying the same new locator are both added,
   * under two different ids: the verses the load would commit break the
   * unique locator.
   */
  lemma {:induction false} UnflushedRepeatClashes(base: map<int, Verse>, verses: map<int, Verse>, rows: seq<CsvRow>, i: int, j: int)
    requires forall k | 0 <= k < |rows| :: WellFormed(rows[k])
    requires 0 <= i < j < |rows|
    requires !Present(base, KeyOf(RowVerse(rows[i])))
    requires KeyOf(RowVerse(rows[i])) == KeyOf(RowVerse(rows[j]))
    ensures NewIdsShareLocator(verses, InsertAllUnflushed(base, verses, rows).0)
    decreases |rows|
  {
    if i == 0 {
      UnflushedFirstRowClashes(base, verses, rows, j);
    } else {
      var tail := rows[1..];
      var v := RowVerse(rows[0]);
      assert rows[i] == tail[i - 1] && rows[j] == tail[j - 1];
      if Present(base, KeyOf(v)) {
        UnflushedRepeatClashes(base, verses, tail, i - 1, j - 1);
      } else {
        var v1 := verses[NextId(verses) := v];
        UnflushedRepeatClashes(base, v1, tail, i - 1, j - 1);
        NewIdsShareLocatorWiden(verses, v1, InsertAllUnflushed(base, v1, tail).0);
      }
    }
  }

  /** Without autoflush, a later row repeating the first row's new locator is added a second time. */
  lemma UnflushedFirstRowClashes(base: map<int, Verse>, verses: map<int, Verse>, rows: seq<CsvRow>, j: int)
    requires forall k | 0 <= k < |rows| :: WellFormed(rows[k])
    requires 0 < j < |rows|
    requires !Present(base, KeyOf(RowVerse(rows[0])))
    requires KeyOf(RowVerse(rows[0])) == KeyOf(RowVerse(rows[j]))
    ensures NewIdsShareLocator(verses, InsertAllUnflushed(base, verses, rows).0)
  {
    var tail := rows[1..];
    var id1 := NextId(verses);
    var v1 := verses[id1 := RowVerse(rows[0])];
    var r := InsertAllUnflushed(base, v1, tail).0;
    assert InsertAllUnflushed(base, verses, rows).0 == r;
    assert r[id1] == RowVerse(rows[0]);
    assert rows[j] == tail[j - 1];
    UnflushedAddsRow(base, v1, tail, j - 1);
    var id2 :| id2 in r && id2 !in v1 && r[id2] == RowVerse(tail[j - 1]);
    assert id1 != id2 && id2 !in verses && KeyOf(r[id1]) == KeyOf(r[id2]);
  }

  /** The catalog has the locator of a row exactly when the committed catalog does. */
  ghost predicate SamePresence(verses: map<int, Verse>, base: map<int, Verse>, rows: seq<CsvRow>)
    requires forall i | 0 <= i < |rows| :: WellFormed(rows[i])
  {
    forall i | 0 <= i < |rows| :: Present(verses, KeyOf(RowVerse(rows[i]))) == Present(base, KeyOf(RowVerse(rows[i])))
  }

  /** Dropping the first row keeps a file free of repeated new locators. */
  lemma NoRepeatInTail(base: map<int, Verse>, rows: seq<CsvRow>)
    requires |rows| >= 1
    requires forall i | 0 <= i < |rows| :: WellFormed(rows[i])
    requires !RepeatsNewLocator(base, rows)
    ensures !RepeatsNewLocator(base, rows[1..])
  {
    var tail := rows[1..];
    forall a, b | 0 <= a < b < |tail|
      ensures !(!Present(base, KeyOf(RowVerse(tail[a]))) && KeyOf(RowVerse(tail[a])) == KeyOf(RowVerse(tail[b])))
    {
      assert tail[a] == rows[a + 1] && tail[b] == rows[b + 1];
    }
  }

  /**
   * After the first row of a file without repeated new locators, the catalog
   * still answers the existence query for the later rows as the committed one does.
   */
  lemma SamePresenceAfterFirst(base: map<int, Verse>, verses: map<int, Verse>, rows: seq<CsvRow>)
    requires |rows| >= 1
    requires forall i | 0 <= i < |rows| :: WellFormed(rows[i])
    requires SamePresence(verses, base, rows)
    requires !RepeatsNewLocator(base, rows)
    ensures SamePresence(InsertRow(verses, rows[0]).0, base, rows[1..])
  {
    var tail := rows[1..];
    var k0 := KeyOf(RowVerse(rows[0]));
    var v1 := InsertRow(verses, rows[0]).0;
    forall a | 0 <= a < |tail|
      ensures Present(v1, KeyOf(RowVerse(tail[a]))) == Present(base, KeyOf(RowVerse(tail[a])))
    {
      var k := KeyOf(RowVerse(tail[a]));
      assert tail[a] == rows[a + 1];
      if !Present(base, k0) {
        assert k0 != KeyOf(RowVerse(rows[a + 1]));
        InsertRowOnlyOwnKey(verses, rows[0], k);
        PresentKept(verses, v1, k);
      }
    }
  }

  /**
   * When no row repeats a new locator, the loop without autoflush adds what
   * the loop with autoflush adds: a catalog that has the locators of the rows
   * exactly when the committed one does gives both queries the same answers.
   */
  lemma {:induction false} UnflushedAgrees(base: map<int, Verse>, verses: map<int, Verse>, rows: seq<CsvRow>)
    requires forall i | 0 <= i < |rows| :: WellFormed(rows[i])
    requires SamePresence(verses, base, rows)
    requires !RepeatsNewLocator(base, rows)
    ensures InsertAllUnflushed(base, verses, rows) == InsertAll(verses, rows)
    decreases |rows|
  {
    if rows != [] {
      var v := RowVerse(rows[0]);
      NoRepeatInTail(base, rows);
      SamePresenceAfterFirst(base, verses, rows);
      if Present(base, KeyOf(v)) {
        assert InsertRow(verses, rows[0]) == (verses, false);
        UnflushedAgrees(base, verses, rows[1..]);
      } else {
        var v1 := verses[NextId(verses) := v];
        assert InsertRow(verses, rows[0]) == (v1, true);
        UnflushedAgrees(base, v1, rows[1..]);
      }
    }
  }

  /** Without autoflush, a load that commits commits exactly what the load with autoflush does. */
  lemma LoadCsvAutoflushIrrelevant(s: Store, header: seq<string>, rows: seq<CsvRow>)
    requires LoadCsv(s, header, rows, false).Ok?
    ensures LoadCsv(s, header, rows, false) == LoadCsv(s, header, rows, true)
  {
    UnflushedAgrees(s.verses, s.verses, rows);
  }

  /**
   * The case in which a load without autoflush is refused (see `LoadCsv`) is
   * one whose pending verses give a locator two new ids, which the unique
   * locator forbids.
   */
  lemma DuplicateLocatorClashes(s: Store, rows: seq<CsvRow>)
    requires forall i | 0 <= i < |rows| :: WellFormed(rows[i])
    requires RepeatsNewLocator(s.verses, rows)
    ensures NewIdsShareLocator(s.verses, InsertAllUnflushed(s.verses, s.verses, rows).0)
  {
    var i, j :| 0 <= i < j < |rows|
      && !Present(s.verses, KeyOf(RowVerse(rows[i])))
      && KeyOf(RowVerse(rows[i])) == KeyOf(RowVerse(rows[j]));
    UnflushedRepeatClashes(s.verses, s.verses, rows, i, j);
  }

  /**
   * What a successful load promises, with or without autoflush: every row's
   * locator is in the catalog, the added verses are exactly those of the
   * first rows with new locators, and unique locators stay unique.
   */
  lemma LoadCsvContents(s: Store, header: seq<string>, rows: seq<CsvRow>, autoflush: bool)
    requires LoadCsv(s, header, rows, autoflush).Ok?
    ensures var t := LoadCsv(s, header, rows, autoflush).value.store;
      && (forall i | 0 <= i < |rows| :: Present(t.verses, KeyOf(RowVerse(rows[i]))))
      && (forall id | id in t.verses && id !in s.verses :: FromFirstRow(s.verses, rows, t.verses[id]))
      && (forall i | 0 <= i < |rows|
            && !Present(s.verses, KeyOf(RowVerse(rows[i])))
            && (forall j | 0 <= j < i :: KeyOf(RowVerse(rows[j])) != KeyOf(RowVerse(rows[i]))) ::
            exists id :: id in t.verses && id !in s.verses && t.verses[id] == RowVerse(rows[i]))
      && (KeysUnique(s.verses) ==> KeysUnique(t.verses))
  {
    if !autoflush {
      LoadCsvAutoflushIrrelevant(s, header, rows);
    }
    InsertAllCoversRows(s.verses, rows);
    InsertAllFirstRowWins(s.verses, rows);
    InsertAllAddsFirstRows(s.verses, rows);
    if KeysUnique(s.verses) {
      InsertAllKeepsKeysUnique(s.verses, rows);
    }
  }

  /**
   * A row whose chapter or verse is an integer too wide for the column makes
   * the load fail at that row or an earlier one, with nothing committed,
   * whatever the session setting.
   */
  lemma OutOfRangeRefused(s: Store, header: seq<string>, rows: seq<CsvRow>, autoflush: bool, i: nat)
    requires HasColumns(header)
    requires i < |rows|
    requires rows[i].chapter.Some? && rows[i].verse.Some?
    requires !FitsColumn(rows[i].chapter.value) || !FitsColumn(rows[i].verse.value)
    ensures LoadCsv(s, header, rows, autoflush).Err?
    ensures LoadCsv(s, header, rows, autoflush).error.BadNumber?
    ensures LoadCsv(s, header, rows, autoflush).error.row <= i
  {
    assert !WellFormed(rows[i]);
  }

  /** Loading the same file a second time, with the same session setting, inserts nothing and changes nothing. */
  lemma LoadCsvTwice(s: Store, header: seq<string>, rows: seq<CsvRow>, autoflush: bool)
    requires LoadCsv(s, header, rows, autoflush).Ok?
    ensures var t := LoadCsv(s, header, rows, autoflush).value.store;
      LoadCsv(t, header, rows, autoflush) == Ok(Loaded(t, 0))
  {
    if !autoflush {
      LoadCsvAutoflushIrrelevant(s, header, rows);
    }
    var t := LoadCsv(s, header, rows, autoflush).value.store;
    InsertAllCoversRows(s.verses, rows);
    InsertAllNothingNew(t.verses, rows);
    if !autoflush {
      UnflushedAgrees(t.verses, t.verses, rows);
    }
  }
}

=== FILE: models.dfy ===
/**
 * The two tables of the store: the verse catalog and the per-date assignments
 * (daily selections). Dates are day numbers; ids are integers.
 */
module Models {
  import opened Wrappers
  import opened Text
  import Collections

  /** One catalog row. Its id is the key under which the store holds it. */
  datatype Verse = Verse(book: string, chapter: int, verse: int, text: string)

  /** The unique locator of a verse: (book, chapter, verse). */
  type Key = (string, int, int)

  /** The grouping key the selection rule compares: (book, chapter). */
  type Chapter = (string, int)

  function KeyOf(v: Verse): Key
  {
    (v.book, v.chapter, v.verse)
  }

  function ChapterOf(v: Verse): Chapter
  {
    (v.book, v.chapter)
  }

  /**
   * The store: catalog rows by id, and the verse id assigned to each date.
   * A map has at most one entry per date, as the unique date column demands.
   */
  datatype Store = Store(verses: map<int, Verse>, assignments: map<int, int>)

  /** The unique constraint on (book, chapter, verse). */
  ghost predicate KeysUnique(verses: map<int, Verse>)
  {
    forall i, j | i in verses && j in verses && i != j :: KeyOf(verses[i]) != KeyOf(verses[j])
  }

  /** The table constraints: unique verse locators, and every assignment refers to a catalog verse. */
  ghost predicate Valid(s: Store)
  {
    && KeysUnique(s.verses)
    && forall d | d in s.assignments :: s.assignments[d] in s.verses
  }

  /** No verse is assigned to two dates. */
  ghost predicate NoRepeat(s: Store)
  {
    Collections.Injective(s.assignments)
  }

  /** The human-readable reference `"<book> <chapter>:<verse>"`. */
  function Ref(v: Verse): string
  {
    v.book + " " + IntToString(v.chapter) + ":" + IntToString(v.verse)
  }

  /**
   * Splits a reference at its last ':' and the last ' ' before it. Neither
   * number contains those characters, so any book name is recovered intact.
   */
  function ParseRef(r: string): (p: Option<Key>)
    ensures p.Some? ==> |p.value.0| < |r|
  {
    match LastIndex(r, ':')
    case None => None
    case Some(j) =>
      match LastIndex(r[..j], ' ')
      case None => None
      case Some(i) =>
        match (ParseInt(r[i + 1..j]), ParseInt(r[j + 1..]))
        case (Some(c), Some(n)) => Some((r[..i], c, n))
        case _ => None
  }

  /** The last ':' of `pre + ":" + n` is the one added, when `n` has none. */
  lemma SplitAtColon(pre: string, n: string)
    requires forall k | 0 <= k < |n| :: n[k] != ':'
    ensures var r := pre + ":" + n;
      && LastIndex(r, ':') == Some(|pre|)
      && r[..|pre|] == pre
      && r[|pre| + 1..] == n
  {
    var r := pre + ":" + n;
    assert r[|pre|] == ':';
    assert forall k | |pre| < k < |r| :: r[k] == n[k - |pre| - 1];
  }

  /** The last ' ' of `book + " " + c` is the one added, when `c` has none. */
  lemma SplitAtSpace(book: string, c: string)
    requires forall k | 0 <= k < |c| :: c[k] != ' '
    ensures var pre := book + " " + c;
      && LastIndex(pre, ' ') == Some(|book|)
      && pre[..|book|] == book
      && pre[|book| + 1..] == c
  {
    var pre := book + " " + c;
    assert pre[|book|] == ' ';
    assert forall k | |book| < k < |pre| :: pre[k] == c[k - |book| - 1];
  }

  /** A reference determines the verse's locator: `Ref` can be read back. */
  lemma RefRoundTrip(v: Verse)
    ensures ParseRef(Ref(v)) == Some(KeyOf(v))
  {
    var c := IntToString(v.chapter);
    var n := IntToString(v.verse);
    var pre := v.book + " " + c;
    var r := Ref(v);
    assert r == pre + ":" + n;
    SplitAtColon(pre, n);
    SplitAtSpace(v.book, c);
    var i, j := |v.book|, |pre|;
    assert r[i + 1..j] == pre[i + 1..];
    assert r[..i] == pre[..i];
    IntRoundTrip(v.chapter);
    IntRoundTrip(v.verse);
  }

  /** Two verses with the same reference have the same locator. */
  lemma RefDeterminesKey(a: Verse, b: Verse)
    ensures Ref(a) == Ref(b) <==> KeyOf(a) == KeyOf(b)
  {
    RefRoundTrip(a);
    RefRoundTrip(b);
  }

  /** In a catalog that keeps its unique constraint, distinct ids have distinct references. */
  lemma DistinctIdsDistinctRefs(verses: map<int, Verse>, i: int, j: int)
    requires KeysUnique(verses)
    requires i in verses && j in verses && i != j
    ensures Ref(verses[i]) != Ref(verses[j])
  {
    RefDeterminesKey(verses[i], verses[j]);
  }
}

=== FILE: schedule.dfy ===
/**
 * The scheduling script: resolve every date of a range in order, skipping or
 * overwriting dates that already have a verse, and stop at the first date for
 * which the catalog has run out.
 */
module Schedule {
  import opened Wrappers
  import opened Models
  import opened Selection
  import Collections

  /** What a run leaves: the store, and the date at which the catalog ran out if it stopped early. */
  datatype Run = Run(store: Store, exhaustedAt: Option<int>)

  /** The store with the assignment of `target` deleted. */
  function Clear(s: Store, target: int): Store
  {
    s.(assignments := s.assignments - {target})
  }

  /** `a` and `b` agree on every date outside `lo .. hi - 1`: both lack it, or both give it the same verse. */
  ghost predicate AgreeOutside(a: map<int, int>, b: map<int, int>, lo: int, hi: int)
  {
    forall d | d < lo || hi <= d :: (d in a <==> d in b) && (d in a ==> a[d] == b[d])
  }

  /** Every assignment of `before` is in `after`, to the same verse. */
  ghost predicate Keeps(before: map<int, int>, after: map<int, int>)
  {
    forall d | d in before :: d in after && after[d] == before[d]
  }

  /** Every date of `lo .. hi - 1` has an assignment. */
  ghost predicate Covers(m: map<int, int>, lo: int, hi: int)
  {
    forall d | lo <= d < hi :: d in m
  }

  /** No date of `lo .. hi - 1` has an assignment. */
  ghost predicate Free(m: map<int, int>, lo: int, hi: int)
  {
    forall d | lo <= d < hi :: d !in m
  }

  /** No date of `m` has verse `id`. */
  ghost predicate Unassigned(m: map<int, int>, id: int)
  {
    forall d | d in m :: m[d] != id
  }

  /** The verses of the dates in `lo .. hi - 1` are new with respect to `before`, and pairwise different. */
  ghost predicate FreshAndDistinct(before: map<int, int>, a: map<int, int>, lo: int, hi: int)
  {
    && (forall d | lo <= d < hi && d in a :: Unassigned(before, a[d]))
    && (forall d1, d2 | lo <= d1 < d2 < hi && d1 in a && d2 in a :: a[d1] != a[d2])
  }

  /** Deleting one assignment keeps the table constraints. */
  lemma ClearKeepsValid(s: Store, target: int)
    ensures Valid(s) ==> Valid(Clear(s, target))
    ensures NoRepeat(s) ==> NoRepeat(Clear(s, target))
  {
  }

  /**
   * One date of the run: an assigned date is skipped unless overwriting, in
   * which case its assignment is deleted first; the date is then resolved.
   * The deletion is committed even when the resolution then fails.
   */
  method ScheduleDate(s: Store, target: int, overwrite: bool, hint: int) returns (r: Run)
    ensures r.store.verses == s.verses
    ensures r.exhaustedAt.None? <==> target in r.store.assignments
    ensures r.exhaustedAt.Some? ==> r.exhaustedAt.value == target
    ensures AgreeOutside(r.store.assignments, s.assignments, target, target + 1)
    ensures !overwrite && target in s.assignments ==>
      r.exhaustedAt.None? && r.store.assignments[target] == s.assignments[target]
    ensures overwrite && target in s.assignments && Valid(s) && NoRepeat(s) ==> r.exhaustedAt.None?
    ensures target !in s.assignments ==> (r.exhaustedAt.None? <==> Unused(s) != {})
    ensures target !in s.assignments && r.exhaustedAt.None? ==>
      && |Unused(r.store)| == |Unused(s)| - 1
      && Unassigned(s.assignments, r.store.assignments[target])
    ensures r.exhaustedAt.None? && (overwrite || target !in s.assignments) ==>
      Eligible(Clear(s, target), r.store.assignments[target])
    ensures Valid(s) ==> Valid(r.store)
    ensures NoRepeat(s) ==> NoRepeat(r.store)
  {
    if target in s.assignments && !overwrite {
      return Run(s, None);
    }
    var cleared := if target in s.assignments then Clear(s, target) else s;
    assert cleared == Clear(s, target);
    ClearKeepsValid(s, target);
    if target in s.assignments && Valid(s) && NoRepeat(s) {
      assert s.assignments[target] in Unused(cleared);
    }
    match GetForDate(cleared, target, hint)
    case Err(_) =>
      assert Unused(cleared) == {};
      r := Run(cleared, Some(target));
    case Ok(res) =>
      GetForDateConsumesOne(cleared, target, hint);
      if Valid(cleared) {
        GetForDatePreservesValid(cleared, target, hint);
      }
      if NoRepeat(cleared) {
        GetForDatePreservesNoRepeat(cleared, target, hint);
      }
      forall d | d in s.assignments && target !in s.assignments
        ensures s.assignments[d] != res.verseId
      {
        assert s.assignments[d] in s.assignments.Values;
      }
      r := Run(res.store, None);
  }

  /** Agreement outside a range, then agreement outside its next date, is agreement outside the longer range. */
  lemma AgreeOutsideGrow(a: map<int, int>, p: map<int, int>, s: map<int, int>, lo: int, hi: int)
    requires lo <= hi - 1
    requires AgreeOutside(p, s, lo, hi - 1)
    requires AgreeOutside(a, p, hi - 1, hi)
    ensures AgreeOutside(a, s, lo, hi)
  {
  }

  /** Keeping the assignments of `s`, then changing only date `t` without touching an assignment it had, still keeps them. */
  lemma KeepsGrow(s: map<int, int>, p: map<int, int>, a: map<int, int>, t: int)
    requires Keeps(s, p)
    requires AgreeOutside(a, p, t, t + 1)
    requires t in p ==> t in a && a[t] == p[t]
    ensures Keeps(s, a)
  {
  }

  /** Changing only date `t` keeps every date of `lo .. t - 1` assigned. */
  lemma CoversGrow(p: map<int, int>, a: map<int, int>, lo: int, t: int)
    requires Covers(p, lo, t)
    requires AgreeOutside(a, p, t, t + 1)
    ensures Covers(a, lo, t)
  {
  }

  /** Changing only the next date `hi - 1`, to a verse no date had, keeps the range fresh and distinct. */
  lemma FreshAndDistinctGrow(before: map<int, int>, p: map<int, int>, a: map<int, int>, lo: int, hi: int)
    requires lo <= hi - 1
    requires FreshAndDistinct(before, p, lo, hi - 1)
    requires Keeps(before, p)
    requires AgreeOutside(a, p, hi - 1, hi)
    requires hi - 1 in a ==> Unassigned(p, a[hi - 1])
    ensures FreshAndDistinct(before, a, lo, hi)
  {
    if hi - 1 in a {
      var id := a[hi - 1];
      forall d | d in before
        ensures before[d] != id
      {
        assert p[d] == before[d];
      }
    }
  }

  /** A date a run has not reached yet is still free when it was free at the start. */
  lemma StillFree(a: map<int, int>, s: map<int, int>, lo: int, t: int, hi: int)
    requires lo <= t < hi
    requires Free(s, lo, hi)
    requires AgreeOutside(a, s, lo, t)
    ensures t !in a
  {
    assert t !in s;
  }

  /** Dates of a range that a run never reached keep having no assignment. */
  lemma FreshAndDistinctWiden(before: map<int, int>, a: map<int, int>, lo: int, mid: int, hi: int)
    requires lo <= mid <= hi
    requires FreshAndDistinct(before, a, lo, mid)
    requires Free(a, mid, hi)
    ensures FreshAndDistinct(before, a, lo, hi)
  {
  }

  /** In a valid store in which no verse is left unused, the assigned verses are the whole catalog. */
  lemma AllUsed(t: Store)
    requires Valid(t)
    requires |Unused(t)| == 0
    ensures t.assignments.Values == t.verses.Keys
  {
    forall v | v in t.assignments.Values
      ensures v in t.verses
    {
      Collections.ValueHasKey(t.assignments, v);
    }
    assert Unused(t) == {};
  }

  /**
   * A run from an empty schedule that covered its whole range and used up
   * the catalog assigned every verse to exactly one date of the range.
   */
  lemma UsesEveryVerse(s: Store, t: Store, start: int, days: int)
    requires s.assignments == map[]
    requires Valid(s)
    requires days == |s.verses|
    requires t.verses == s.verses
    requires Valid(t)
    requires AgreeOutside(t.assignments, s.assignments, start, start + days)
    requires Covers(t.assignments, start, start + days)
    requires days <= |Unused(s)| ==> |Unused(t)| == |Unused(s)| - days
    ensures days <= |Unused(s)|
    ensures t.assignments.Values == s.verses.Keys
    ensures forall d :: d in t.assignments <==> start <= d < start + days
  {
    assert Unused(s) == s.verses.Keys;
    AllUsed(t);
  }

  /**
   * What a run has done after the first `i` dates of its range: the catalog is
   * untouched, nothing outside those dates changed, and every date it reached
   * is assigned, except the one at which it stopped.
   */
  ghost predicate Reached(s: Store, r: Run, start: int, i: int)
  {
    && r.store.verses == s.verses
    && AgreeOutside(r.store.assignments, s.assignments, start, start + i)
    && (r.exhaustedAt.None? ==> Covers(r.store.assignments, start, start + i))
    && (r.exhaustedAt.Some? ==>
          && 1 <= i
          && r.exhaustedAt.value == start + i - 1
          && r.exhaustedAt.value !in r.store.assignments
          && Covers(r.store.assignments, start, r.exhaustedAt.value))
  }

  /** What a run keeps: the existing assignments unless overwriting, and the table constraints. */
  ghost predicate Preserved(s: Store, r: Run, overwrite: bool)
  {
    && (!overwrite ==> Keeps(s.assignments, r.store.assignments))
    && (Valid(s) ==> Valid(r.store))
    && (NoRepeat(s) ==> NoRepeat(r.store))
  }

  /**
   * In a range that had no assignments, after `i` dates: the run is still going
   * exactly while the unused verses lasted, each date took one of them, and the
   * verses of the range are new and pairwise different.
   */
  ghost predicate Counted(s: Store, r: Run, start: int, i: int)
  {
    && (r.exhaustedAt.None? <==> i <= |Unused(s)|)
    && (r.exhaustedAt.None? ==> |Unused(r.store)| == |Unused(s)| - i)
    && (r.exhaustedAt.Some? ==> i - 1 == |Unused(s)|)
    && FreshAndDistinct(s.assignments, r.store.assignments, start, start + i)
  }

  /** Scheduling date `start + i` extends what the run has reached by that date. */
  lemma ReachedStep(s: Store, prev: Run, r: Run, start: int, i: int)
    requires 0 <= i
    requires Reached(s, prev, start, i) && prev.exhaustedAt.None?
    requires r.store.verses == prev.store.verses
    requires r.exhaustedAt.None? <==> start + i in r.store.assignments
    requires r.exhaustedAt.Some? ==> r.exhaustedAt.value == start + i
    requires AgreeOutside(r.store.assignments, prev.store.assignments, start + i, start + i + 1)
    ensures Reached(s, r, start, i + 1)
  {
    AgreeOutsideGrow(r.store.assignments, prev.store.assignments, s.assignments, start, start + i + 1);
    CoversGrow(prev.store.assignments, r.store.assignments, start, start + i);
  }

  /** Scheduling one date keeps what the run keeps. */
  lemma PreservedStep(s: Store, prev: Run, r: Run, target: int, overwrite: bool)
    requires Preserved(s, prev, overwrite)
    requires AgreeOutside(r.store.assignments, prev.store.assignments, target, target + 1)
    requires r.exhaustedAt.None? <==> target in r.store.assignments
    requires !overwrite && target in prev.store.assignments ==>
      r.exhaustedAt.None? && r.store.assignments[target] == prev.store.assignments[target]
    requires Valid(prev.store) ==> Valid(r.store)
    requires NoRepeat(prev.store) ==> NoRepeat(r.store)
    ensures Preserved(s, r, overwrite)
  {
    if !overwrite {
      KeepsGrow(s.assignments, prev.store.assignments, r.store.assignments, target);
    }
  }

  /** Scheduling the next date of a range that had no assignments keeps the count. */
  lemma CountedStep(s: Store, prev: Run, r: Run, start: int, i: int, days: int)
    requires 0 <= i < days
    requires Free(s.assignments, start, start + days)
    requires Reached(s, prev, start, i) && prev.exhaustedAt.None?
    requires Keeps(s.assignments, prev.store.assignments)
    requires Counted(s, prev, start, i)
    requires r.exhaustedAt.None? <==> start + i in r.store.assignments
    requires AgreeOutside(r.store.assignments, prev.store.assignments, start + i, start + i + 1)
    requires start + i !in prev.store.assignments ==> (r.exhaustedAt.None? <==> Unused(prev.store) != {})
    requires start + i !in prev.store.assignments && r.exhaustedAt.None? ==>
      && |Unused(r.store)| == |Unused(prev.store)| - 1
      && Unassigned(prev.store.assignments, r.store.assignments[start + i])
    ensures Counted(s, r, start, i + 1)
  {
    StillFree(prev.store.assignments, s.assignments, start, start + i, start + days);
    FreshAndDistinctGrow(s.assignments, prev.store.assignments, r.store.assignments, start, start + i + 1);
  }

  /** Where a run ends: what it reached over the dates it visited holds for its whole range. */
  lemma ReachedEnd(s: Store, r: Run, start: int, i: int, days: int)
    requires 0 <= i <= days
    requires i == days || r.exhaustedAt.Some?
    requires Reached(s, r, start, i)
    ensures AgreeOutside(r.store.assignments, s.assignments, start, start + days)
    ensures r.exhaustedAt.None? ==> Covers(r.store.assignments, start, start + days)
    ensures r.exhaustedAt.Some? ==>
      && start <= r.exhaustedAt.value < start + days
      && r.exhaustedAt.value !in r.store.assignments
      && Covers(r.store.assignments, start, r.exhaustedAt.value)
      && AgreeOutside(r.store.assignments, s.assignments, start, r.exhaustedAt.value + 1)
  {
  }

  /** Where a run over a range that had no assignments ends: the count and freshness over the whole range. */
  lemma CountedEnd(s: Store, r: Run, start: int, i: int, days: int)
    requires 0 <= i <= days
    requires i == days || r.exhaustedAt.Some?
    requires Free(s.assignments, start, start + days)
    requires Reached(s, r, start, i)
    requires Counted(s, r, start, i)
    ensures r.exhaustedAt.None? <==> days <= |Unused(s)|
    ensures r.exhaustedAt.None? ==> |Unused(r.store)| == |Unused(s)| - days
    ensures days > |Unused(s)| ==> r.exhaustedAt == Some(start + |Unused(s)|)
    ensures FreshAndDistinct(s.assignments, r.store.assignments, start, start + days)
  {
    forall d | start + i <= d < start + days
      ensures d !in r.store.assignments
    {
      assert d !in s.assignments;
    }
    FreshAndDistinctWiden(s.assignments, r.store.assignments, start, start + i, start + days);
  }

  /** A range of zero or fewer days: leaving the store as it is meets every promise of a run. */
  lemma EmptyRange(s: Store, start: int, days: int)
    requires days <= 0
    ensures AgreeOutside(s.assignments, s.assignments, start, start + days)
    ensures Covers(s.assignments, start, start + days)
    ensures Keeps(s.assignments, s.assignments)
    ensures s.assignments == map[] && days == |s.verses| ==>
      && s.assignments.Values == s.verses.Keys
      && forall d :: d in s.assignments <==> start <= d < start + days
  {
    if s.assignments == map[] && days == |s.verses| {
      assert s.verses.Keys == {};
    }
  }

  /** The loop invariant of a run over `days` dates, after its first `i`. */
  ghost predicate Loop(s: Store, r: Run, start: int, i: int, days: int, overwrite: bool)
  {
    && 0 <= i <= days
    && Reached(s, r, start, i)
    && Preserved(s, r, overwrite)
    && (Free(s.assignments, start, start + days) ==>
          Keeps(s.assignments, r.store.assignments) && Counted(s, r, start, i))
  }

  /** Scheduling date `start + i` as `ScheduleDate` promises keeps the loop invariant. */
  lemma LoopStep(s: Store, prev: Run, r: Run, start: int, i: int, days: int, overwrite: bool)
    requires Loop(s, prev, start, i, days, overwrite) && i < days && prev.exhaustedAt.None?
    requires r.store.verses == prev.store.verses
    requires r.exhaustedAt.None? <==> start + i in r.store.assignments
    requires r.exhaustedAt.Some? ==> r.exhaustedAt.value == start + i
    requires AgreeOutside(r.store.assignments, prev.store.assignments, start + i, start + i + 1)
    requires !overwrite && start + i in prev.store.assignments ==>
      r.exhaustedAt.None? && r.store.assignments[start + i] == prev.store.assignments[start + i]
    requires start + i !in prev.store.assignments ==> (r.exhaustedAt.None? <==> Unused(prev.store) != {})
    requires start + i !in prev.store.assignments && r.exhaustedAt.None? ==>
      && |Unused(r.store)| == |Unused(prev.store)| - 1
      && Unassigned(prev.store.assignments, r.store.assignments[start + i])
    requires Valid(prev.store) ==> Valid(r.store)
    requires NoRepeat(prev.store) ==> NoRepeat(r.store)
    ensures Loop(s, r, start, i + 1, days, overwrite)
  {
    var target := start + i;
    ReachedStep(s, prev, r, start, i);
    PreservedStep(s, prev, r, target, overwrite);
    if Free(s.assignments, start, start + days) {
      StillFree(prev.store.assignments, s.assignments, start, target, start + days);
      KeepsGrow(s.assignments, prev.store.assignments, r.store.assignments, target);
      CountedStep(s, prev, r, start, i, days);
    }
  }

  /** One turn of the loop: schedules date `start + i` and keeps the loop invariant. */
  method Step(s: Store, prev: Run, start: int, i: int, days: int, overwrite: bool, hint: int) returns (r: Run)
    requires Loop(s, prev, start, i, days, overwrite) && i < days && prev.exhaustedAt.None?
    ensures Loop(s, r, start, i + 1, days, overwrite)
  {
    r := ScheduleDate(prev.store, start + i, overwrite, hint);
    LoopStep(s, prev, r, start, i, days, overwrite);
  }

  /** Where the loop stops, its invariant gives everything a run over the range promises. */
  lemma LoopEnd(s: Store, r: Run, start: int, i: int, days: int, overwrite: bool)
    requires Loop(s, r, start, i, days, overwrite)
    requires i == days || r.exhaustedAt.Some?
    ensures r.store.verses == s.verses
    ensures AgreeOutside(r.store.assignments, s.assignments, start, start + days)
    ensures r.exhaustedAt.None? ==> Covers(r.store.assignments, start, start + days)
    ensures r.exhaustedAt.Some? ==>
      && start <= r.exhaustedAt.value < start + days
      && r.exhaustedAt.value !in r.store.assignments
      && Covers(r.store.assignments, start, r.exhaustedAt.value)
      && AgreeOutside(r.store.assignments, s.assignments, start, r.exhaustedAt.value + 1)
    ensures !overwrite ==> Keeps(s.assignments, r.store.assignments)
    ensures Valid(s) ==> Valid(r.store)
    ensures NoRepeat(s) ==> NoRepeat(r.store)
    ensures Free(s.assignments, start, start + days) ==>
      && (r.exhaustedAt.None? <==> days <= |Unused(s)|)
      && (r.exhaustedAt.None? ==> |Unused(r.store)| == |Unused(s)| - days)
      && (days > |Unused(s)| ==> r.exhaustedAt == Some(start + |Unused(s)|))
      && FreshAndDistinct(s.assignments, r.store.assignments, start, start + days)
    ensures s.assignments == map[] && Valid(s) && days == |s.verses| ==>
      && r.exhaustedAt.None?
      && NoRepeat(r.store)
      && r.store.assignments.Values == s.verses.Keys
      && forall d :: d in r.store.assignments <==> start <= d < start + days
  {
    ReachedEnd(s, r, start, i, days);
    if Free(s.assignments, start, start + days) {
      CountedEnd(s, r, start, i, days);
    }
    if s.assignments == map[] && Valid(s) && days == |s.verses| {
      assert Unused(s) == s.verses.Keys;
      UsesEveryVerse(s, r.store, start, days);
    }
  }

  /**
   * The loop of a run over a range of `days` dates: schedules them in
   * ascending order, stopping at the first date for which no verse is left.
   */
  method RunRange(s: Store, start: int, days: nat, overwrite: bool, hints: int -> int) returns (r: Run)
    ensures r.store.verses == s.verses
    ensures AgreeOutside(r.store.assignments, s.assignments, start, start + days)
    ensures r.exhaustedAt.None? ==> Covers(r.store.assignments, start, start + days)
    ensures r.exhaustedAt.Some? ==>
      && start <= r.exhaustedAt.value < start + days
      && r.exhaustedAt.value !in r.store.assignments
      && Covers(r.store.assignments, start, r.exhaustedAt.value)
      && AgreeOutside(r.store.assignments, s.assignments, start, r.exhaustedAt.value + 1)
    ensures !overwrite ==> Keeps(s.assignments, r.store.assignments)
    ensures Valid(s) ==> Valid(r.store)
    ensures NoRepeat(s) ==> NoRepeat(r.store)
    ensures Free(s.assignments, start, start + days) ==>
      && (r.exhaustedAt.None? <==> days <= |Unused(s)|)
      && (r.exhaustedAt.None? ==> |Unused(r.store)| == |Unused(s)| - days)
      && (days > |Unused(s)| ==> r.exhaustedAt == Some(start + |Unused(s)|))
      && FreshAndDistinct(s.assignments, r.store.assignments, start, start + days)
    ensures s.assignments == map[] && Valid(s) && days == |s.verses| ==>
      && r.exhaustedAt.None?
      && NoRepeat(r.store)
      && r.store.assignments.Values == s.verses.Keys
      && forall d :: d in r.store.assignments <==> start <= d < start + days
  {
    r := Run(s, None);
    var i := 0;
    while i < days && r.exhaustedAt.None?
      invariant Loop(s, r, start, i, days, overwrite)
      decreases days - i
    {
      r := Step(s, r, start, i, days, overwrite, hints(start + i));
      i := i + 1;
    }
    LoopEnd(s, r, start, i, days, overwrite);
  }

  /**
   * Schedules the dates `start .. start + days - 1` in ascending order, stopping
   * at the first date for which no verse is left; `hints` gives each date's draw.
   * A range of zero or fewer days is empty.
   */
  method Generate(s: Store, start: int, days: int, overwrite: bool, hints: int -> int) returns (r: Run)
    ensures days <= 0 ==> r == Run(s, None)
    ensures r.store.verses == s.verses
    ensures AgreeOutside(r.store.assignments, s.assignments, start, start + days)
    ensures r.exhaustedAt.None? ==> Covers(r.store.assignments, start, start + days)
    ensures r.exhaustedAt.Some? ==>
      && start <= r.exhaustedAt.value < start + days
      && r.exhaustedAt.value !in r.store.assignments
      && Covers(r.store.assignments, start, r.exhaustedAt.value)
      && AgreeOutside(r.store.assignments, s.assignments, start, r.exhaustedAt.value + 1)
    ensures !overwrite ==> Keeps(s.assignments, r.store.assignments)
    ensures Valid(s) ==> Valid(r.store)
    ensures NoRepeat(s) ==> NoRepeat(r.store)
    ensures 0 <= days && Free(s.assignments, start, start + days) ==>
      && (r.exhaustedAt.None? <==> days <= |Unused(s)|)
      && (r.exhaustedAt.None? ==> |Unused(r.store)| == |Unused(s)| - days)
      && (days > |Unused(s)| ==> r.exhaustedAt == Some(start + |Unused(s)|))
      && FreshAndDistinct(s.assignments, r.store.assignments, start, start + days)
    ensures s.assignments == map[] && Valid(s) && days == |s.verses| ==>
      && r.exhaustedAt.None?
      && NoRepeat(r.store)
      && r.store.assignments.Values == s.verses.Keys
      && forall d :: d in r.store.assignments <==> start <= d < start + days
  {
    if days <= 0 {
      EmptyRange(s, start, days);
      r := Run(s, None);
    } else {
      r := RunRange(s, start, days, overwrite, hints);
    }
  }
}

=== FILE: selection.dfy ===
/**
 * The daily-verse selection rule: a date that already has a verse keeps it;
 * otherwise a verse no date has used yet is picked, preferring one outside the
 * (book, chapter) of the verse on the latest assigned date.
 */
module Selection {
  import opened Wrappers
  import opened Models
  import Collections

  /** Every catalog verse is already assigned to some date. */
  datatype SelectError = Exhausted

  /** What a resolution hands back: the store after the call and the verse id now on the date. */
  datatype Resolution = Resolution(store: Store, verseId: int)

  /** Catalog ids that no assignment refers to. */
  function Unused(s: Store): (u: set<int>)
    ensures forall id | id in u :: id in s.verses && id !in s.assignments.Values
    ensures forall id | id in s.verses && id !in s.assignments.Values :: id in u
  {
    set id | id in s.verses && id !in s.assignments.Values
  }

  /**
   * The (book, chapter) of the verse on the greatest assigned date, whatever
   * date is being resolved. None when there are no assignments or that
   * verse is missing from the catalog.
   */
  function LastChapter(s: Store): (c: Option<Chapter>)
    ensures c.Some? ==>
      exists d | d in s.assignments ::
        && (forall e | e in s.assignments :: e <= d)
        && s.assignments[d] in s.verses
        && c.value == ChapterOf(s.verses[s.assignments[d]])
    ensures c.None? ==>
      forall d | d in s.assignments && (forall e | e in s.assignments :: e <= d) ::
        s.assignments[d] !in s.verses
  {
    if s.assignments == map[] then None
    else
      var latest := Collections.Greatest(s.assignments.Keys);
      var id := s.assignments[latest];
      if id in s.verses then Some(ChapterOf(s.verses[id])) else None
  }

  /** An unused verse outside the last chapter: the kind the rule prefers. */
  ghost predicate Preferred(s: Store, id: int)
  {
    && id in s.verses
    && id !in s.assignments.Values
    && LastChapter(s) != Some(ChapterOf(s.verses[id]))
  }

  /**
   * The verses the rule may pick: unused ones, restricted to preferred ones
   * whenever any preferred one exists.
   */
  ghost predicate Eligible(s: Store, id: int)
  {
    && id in s.verses
    && id !in s.assignments.Values
    && (Preferred(s, id) || forall other | other in s.verses :: !Preferred(s, other))
  }

  /** Unused verses whose chapter differs from the last chapter. */
  function OtherChapters(s: Store): set<int>
  {
    set id | id in Unused(s) && Some(ChapterOf(s.verses[id])) != LastChapter(s)
  }

  /** The filtered candidates when there are any, all candidates otherwise. */
  function Pool(s: Store): set<int>
  {
    var filtered := OtherChapters(s);
    if filtered != {} then filtered else Unused(s)
  }

  /** The pool holds exactly the eligible verses. */
  lemma PoolIsEligible(s: Store, v: int)
    ensures v in Pool(s) <==> Eligible(s, v)
  {
    assert forall other | Preferred(s, other) :: other in OtherChapters(s);
    if OtherChapters(s) != {} {
      var w := Collections.PickOne(OtherChapters(s));
      assert Preferred(s, w);
    }
  }

  /**
   * The random choice from the pool, as an oracle: `hint` names the member
   * drawn; a hint outside the pool stands for the least member.
   */
  function Choose(pool: set<int>, hint: int): (v: int)
    requires pool != {}
    ensures v in pool
    ensures hint in pool ==> v == hint
  {
    if hint in pool then hint else Collections.Least(pool)
  }

  /** Picks a verse for a date that has none yet. */
  function PickNewVerse(s: Store, hint: int): (r: Result<int, SelectError>)
    ensures r.Err? <==> s.verses.Keys <= s.assignments.Values
    ensures r.Ok? ==> r.value in s.verses && r.value !in s.assignments.Values
    ensures r.Ok? ==> Eligible(s, r.value)
    ensures r.Ok? && (exists id | id in s.verses :: Preferred(s, id)) ==>
      LastChapter(s) != Some(ChapterOf(s.verses[r.value]))
  {
    var candidates := Unused(s);
    if candidates == {} then Err(Exhausted)
    else
      var v := Choose(Pool(s), hint);
      PoolIsEligible(s, v);
      Ok(v)
  }

  /**
   * Returns the verse already on `target`, or assigns a newly picked one to it.
   */
  function GetForDate(s: Store, target: int, hint: int): (r: Result<Resolution, SelectError>)
    ensures target in s.assignments ==> r == Ok(Resolution(s, s.assignments[target]))
    ensures r.Err? <==> target !in s.assignments && s.verses.Keys <= s.assignments.Values
    ensures r.Ok? ==> r.value.store.verses == s.verses
    ensures r.Ok? ==> target in r.value.store.assignments
                      && r.value.store.assignments[target] == r.value.verseId
    ensures r.Ok? && target !in s.assignments ==>
      && r.value.store.assignments == s.assignments[target := r.value.verseId]
      && r.value.verseId in s.verses
      && r.value.verseId !in s.assignments.Values
      && Eligible(s, r.value.verseId)
  {
    if target in s.assignments then Ok(Resolution(s, s.assignments[target]))
    else
      match PickNewVerse(s, hint)
      case Err(e) => Err(e)
      case Ok(id) => Ok(Resolution(s.(assignments := s.assignments[target := id]), id))
  }

  /** The picks reachable by some draw are exactly the eligible verses. */
  lemma PicksAreEligible(s: Store, v: int)
    ensures (exists hint :: PickNewVerse(s, hint) == Ok(v)) <==> Eligible(s, v)
  {
    if Eligible(s, v) {
      PoolIsEligible(s, v);
      assert PickNewVerse(s, v) == Ok(v);
    }
  }

  /** Resolving the same date again returns the same verse and changes nothing. */
  lemma GetForDateIdempotent(s: Store, target: int, hint1: int, hint2: int)
    requires GetForDate(s, target, hint1).Ok?
    ensures var first := GetForDate(s, target, hint1).value;
      GetForDate(first.store, target, hint2) == Ok(first)
  {
  }

  /** A resolution keeps the table constraints. */
  lemma GetForDatePreservesValid(s: Store, target: int, hint: int)
    requires Valid(s)
    requires GetForDate(s, target, hint).Ok?
    ensures Valid(GetForDate(s, target, hint).value.store)
  {
  }

  /** A resolution never gives a second date a verse some date already has. */
  lemma GetForDatePreservesNoRepeat(s: Store, target: int, hint: int)
    requires NoRepeat(s)
    requires GetForDate(s, target, hint).Ok?
    ensures NoRepeat(GetForDate(s, target, hint).value.store)
  {
    var r := GetForDate(s, target, hint).value;
    if target !in s.assignments {
      var a := r.store.assignments;
      forall x, y | x in a && y in a && x != y
        ensures a[x] != a[y]
      {
        if x != target && y != target {
          assert a[x] == s.assignments[x] && a[y] == s.assignments[y];
        } else if x == target {
          assert a[y] == s.assignments[y] && a[y] in s.assignments.Values;
        } else {
          assert a[x] == s.assignments[x] && a[x] in s.assignments.Values;
        }
      }
    }
  }

  /** Resolving a new date uses up exactly one unused verse. */
  lemma GetForDateConsumesOne(s: Store, target: int, hint: int)
    requires target !in s.assignments
    requires GetForDate(s, target, hint).Ok?
    ensures var r := GetForDate(s, target, hint).value;
      && Unused(r.store) == Unused(s) - {r.verseId}
      && r.verseId in Unused(s)
      && |Unused(r.store)| == |Unused(s)| - 1
  {
    var r := GetForDate(s, target, hint).value;
    Collections.ValuesAfterInsert(s.assignments, target, r.verseId);
  }

  /**
   * When a preferred verse exists, a resolution avoids the chapter on the
   * greatest assigned date, even if `target` lies before that date.
   */
  lemma ComparesWithLatestDate(s: Store, target: int, hint: int, latest: int)
    requires latest in s.assignments && forall e | e in s.assignments :: e <= latest
    requires s.assignments[latest] in s.verses
    requires target !in s.assignments
    requires exists id | id in s.verses :: id !in s.assignments.Values
               && ChapterOf(s.verses[id]) != ChapterOf(s.verses[s.assignments[latest]])
    ensures GetForDate(s, target, hint).Ok?
    ensures var id := GetForDate(s, target, hint).value.verseId;
      ChapterOf(s.verses[id]) != ChapterOf(s.verses[s.assignments[latest]])
  {
    var last := ChapterOf(s.verses[s.assignments[latest]]);
    assert Collections.Greatest(s.assignments.Keys) == latest;
    assert LastChapter(s) == Some(last);
    var w :| w in s.verses && w !in s.assignments.Values && ChapterOf(s.verses[w]) != last;
    assert Preferred(s, w);
    var r := PickNewVerse(s, hint);
    assert r.Ok?;
  }

  /** With no assignments at all, every verse is preferred: nothing is filtered out. */
  lemma NothingFilteredWithoutHistory(s: Store, target: int, id: int)
    requires s.assignments == map[]
    requires id in s.verses
    ensures Preferred(s, id)
    ensures exists hint :: GetForDate(s, target, hint) == Ok(Resolution(s.(assignments := map[target := id]), id))
  {
    assert LastChapter(s) == None;
    PicksAreEligible(s, id);
    var hint :| PickNewVerse(s, hint) == Ok(id);
    assert GetForDate(s, target, hint) == Ok(Resolution(s.(assignments := map[target := id]), id));
  }

  /** When every unused verse shares the last chapter, the pick still succeeds, from that chapter. */
  lemma FallbackKeepsChapter(s: Store, target: int, hint: int)
    requires target !in s.assignments
    requires LastChapter(s).Some?
    requires exists id | id in s.verses :: id !in s.assignments.Values
    requires forall id | id in s.verses && id !in s.assignments.Values ::
               ChapterOf(s.verses[id]) == LastChapter(s).value
    ensures GetForDate(s, target, hint).Ok?
    ensures var id := GetForDate(s, target, hint).value.verseId;
      LastChapter(s) == Some(ChapterOf(s.verses[id]))
  {
  }
}

=== FILE: text.dfy ===
/** Decimal rendering of integers, as Python's `str(int)` writes them, and its inverse. */
module Text {
  import opened Wrappers

  predicate IsDigit(c: char)
  {
    '0' <= c <= '9'
  }

  function DigitChar(d: int): (c: char)
    requires 0 <= d < 10
    ensures IsDigit(c)
  {
    "0123456789"[d]
  }

  /** The decimal digits of `n`, most significant first, with no leading zero. */
  function NatToString(n: nat): (s: string)
    ensures |s| >= 1
    ensures forall i | 0 <= i < |s| :: IsDigit(s[i])
    decreases n
  {
    if n < 10 then [DigitChar(n)] else NatToString(n / 10) + [DigitChar(n % 10)]
  }

  /** `str(n)` for a Python int: a minus sign before the digits of a negative number. */
  function IntToString(n: int): (s: string)
    ensures |s| >= 1
    ensures forall i | 0 <= i < |s| :: s[i] != ' ' && s[i] != ':'
  {
    if n < 0 then "-" + NatToString(-n) else NatToString(n)
  }

  /** Reads a non-empty string of decimal digits, last digit least significant; None when any character is not a digit. */
  function ParseNat(s: string): (r: Option<nat>)
    ensures r.Some? ==> |s| >= 1
    decreases |s|
  {
    if s == [] || !IsDigit(s[|s| - 1]) then None
    else
      var d := s[|s| - 1] as int - '0' as int;
      if |s| == 1 then Some(d)
      else match ParseNat(s[..|s| - 1])
        case None => None
        case Some(v) => Some(v * 10 + d)
  }

  /** Reads back an optional minus sign followed by decimal digits. */
  function ParseInt(s: string): (r: Option<int>)
    ensures r.Some? ==> 1 <= |s|
  {
    if |s| >= 2 && s[0] == '-' then
      match ParseNat(s[1..])
      case None => None
      case Some(v) => Some(0 - v)
    else
      match ParseNat(s)
      case None => None
      case Some(v) => Some(v)
  }

  /** The digits of a natural number read back as that number. */
  lemma {:induction false} NatRoundTrip(n: nat)
    ensures ParseNat(NatToString(n)) == Some(n)
    decreases n
  {
    if n >= 10 {
      var s := NatToString(n);
      NatRoundTrip(n / 10);
      assert s[..|s| - 1] == NatToString(n / 10);
      assert s[|s| - 1] == DigitChar(n % 10);
    }
  }

  /** A minus sign before the digits of `m` is read back as `-m`. */
  lemma NegativeRoundTrip(m: nat)
    requires m > 0
    ensures ParseInt("-" + NatToString(m)) == Some(0 - m)
  {
    var d := NatToString(m);
    NatRoundTrip(m);
    assert ("-" + d)[1..] == d;
  }

  /** The digits of `m`, with no sign, are read back as `m`. */
  lemma NonNegativeRoundTrip(m: nat)
    ensures ParseInt(NatToString(m)) == Some(m)
  {
    var d := NatToString(m);
    NatRoundTrip(m);
    assert IsDigit(d[0]);
  }

  /** Rendering an integer and reading it back gives the same integer. */
  lemma IntRoundTrip(n: int)
    ensures ParseInt(IntToString(n)) == Some(n)
  {
    if n < 0 {
      NegativeRoundTrip(-n);
    } else {
      NonNegativeRoundTrip(n);
    }
  }

  /** The position of the last occurrence of `c` in `s`, if any. */
  function LastIndex(s: string, c: char): (r: Option<nat>)
    ensures r.Some? ==> r.value < |s| && s[r.value] == c
    ensures r.Some? ==> forall k | r.value < k < |s| :: s[k] != c
    ensures r.None? ==> forall k | 0 <= k < |s| :: s[k] != c
  {
    if s == [] then None
    else if s[|s| - 1] == c then Some(|s| - 1)
    else LastIndex(s[..|s| - 1], c)
  }
}

=== FILE: wrappers.dfy ===
/** Failure-carrying datatypes shared by the whole model. */
module Wrappers {

  datatype Option<+T> = None | Some(value: T)

  /** The outcome of an operation that either succeeds with a value or fails with an error. */
  datatype Result<+T, +E> = Ok(value: T) | Err(error: E)
}
